=== FILE: README.md ===
# rsg in Dafny

rsg is a structural grep for Rust: it parses each source file, projects the
syntax tree into a generic XML-like document, runs an XPath query on the
document and prints every match as source tokens. The core modelled here is
the bridge between the syntax tree and the document:

- the projection builder of `src/lib.rs`. Every visited node becomes an
  element tagged with its kind name. A node whose kind has a backreference is
  appended to the registry `items`, and the element records its index in the
  `__id__` attribute as a decimal string. The builder saves its current root
  around each recursive step and restores it afterwards. `get` turns an
  element back into its node by parsing that attribute;
- the result printing and the per-entry walk decision of `src/main.rs`.

The modules follow the program:

| module | what it holds |
|---|---|
| `Wrappers` | `Option` and `Result` |
| `Decimal` | `usize` formatting and `str::parse::<usize>`, and their round trip |
| `Ast` | the syntax tree, kept generic (kind name, backreference flag, ordered children; identifier leaves), and the eight kinds the visitor table marks with `?` |
| `Dom` | the element tree as a forest under a synthetic root, addressed by paths; `append_child` and `set_text` |
| `Lib` | `Builder`: `new`, the `add` step, the visitor, `get` |
| `Projection` | the projection as a pure pre-order function, and the facts that tie the builder to it |
| `Driver` | `match_reader`'s printing, `match_file_inner`, `match_file`, and the standard-input run |

The builder's `visit_file` is `Lib.Visit(Lib.New(), file)`. `Projection.ProjectFile`
proves that this equals the pure projection `Projection.Project(file, 0)`: one
element under the document root, plus its registry. The remaining
`Projection` lemmas are stated about that pure function:

- ids count up in pre-order;
- a parent's id is below every id in its subtree;
- every element resolves through `get` to the node that produced it.

Two behaviours of the code are worth stating plainly:

- `get` calls `unwrap` on the `__id__` attribute, so a matched element
  that has none (one built for a `?` kind) makes the run panic. `Lib.Get`
  returns `Failure(MissingId)` there; `Driver.BuiltElementPrints` shows
  that this happens exactly for the elements of the `?` kinds, and
  `Driver.MatchReaderStopsAtMarker` that the output then stops with a
  panic.
- A query that fails to parse or evaluate is an error of `match_reader`, so
  in a directory walk it is printed for each file and the walk continues
  (`Driver.MatchFile`); only on standard input does it become a panic
  (`Driver.RunStdin`).

## Model

| member | source | states |
|---|---|---|
| Decimal.Format | src/lib.rs:24 | the id text is canonical decimal: digits only, and a leading `0` only for zero itself |
| Decimal.Parse | src/lib.rs:49 | text parses only if, after one optional leading `+`, it is a non-empty run of digits; the result is their decimal value and never exceeds the largest 64-bit `usize` |
| Decimal.ParseLeadingZero | src/lib.rs:49 | a leading zero does not change what a digit string parses to |
| Decimal.ParsePlusSign | src/lib.rs:49 | one leading `+` is accepted and ignored |
| Decimal.ParseRejects | src/lib.rs:49 | any character that is not a digit, other than one leading `+`, makes the parse fail, so `get` panics on such an id |
| Decimal.ParseRejectsEmpty | src/lib.rs:49 | the empty text and a lone `+` do not parse |
| Decimal.FormatValue | src/lib.rs:24 | the digits written for `n` denote `n` |
| Decimal.ParseFormat | src/lib.rs:49 | parsing the id written for any index up to the `usize` maximum gives that index back |
| Decimal.FormatParse | src/lib.rs:49 | a canonical string that parses is exactly what formatting its value writes |
| Decimal.FormatInjective | src/lib.rs:24 | distinct indices get distinct id strings |
| Ast.NoItemExactlyForMarkedKinds | src/lib.rs:58-64 | under the visitor table, at any depth of the tree, a node reaches `add` without an item exactly when it is of one of the eight `?` kinds |
| Dom.AppendAtSpec | src/lib.rs:29-33 | `append_child` puts the elements after the node's existing children and keeps the node addressable |
| Dom.AppendAtFrame | src/lib.rs:29-33 | appending keeps every element addressable at its path; an element off the path to the target is unchanged, and one on it changes only in its children |
| Dom.SetTextAtSpec | src/lib.rs:260 | `set_text` makes the text the element's only content and changes nothing else about it |
| Lib.New | src/lib.rs:40-46 | a new builder has no current root and an empty registry |
| Lib.EnterSpec | src/lib.rs:21-35 | the new element is the current root's last child and becomes the root, with the kind's tag and no content; with an item, its id is the old registry length and the registry grows by exactly that item; without one, the registry is unchanged and there are no attributes |
| Lib.Visit | src/lib.rs:35-37 | after each visit step the current root is what it was before |
| Lib.VisitAll | src/lib.rs:58 | walking a node's children leaves the current root unchanged |
| Lib.GetSpec | src/lib.rs:48-50 | `get` panics with no `__id__` or an unparsable one, gives the registry entry at an in-range index, and gives `None` past the end |
| Lib.GetFormatted | src/lib.rs:48-50 | an element carrying index `i` resolves to entry `i`, or to `None` past the end |
| Projection.VisitProjects | src/lib.rs:17-38 | one visit step appends exactly the node's projection under the current root and extends the registry by the projection's entries |
| Projection.VisitIdentProjects | src/lib.rs:258-262 | visiting an identifier appends its projection, an `Ident` element with the next id holding only the identifier's text, and registers the identifier |
| Projection.VisitNodeProjects | src/lib.rs:57-59 | a node projects to its tagged element holding its children's projections in order |
| Projection.VisitAllProjects | src/lib.rs:58 | visiting siblings appends their projections in order |
| Projection.ProjectFile | src/lib.rs:40-46 | visiting a file from a new builder leaves exactly the file's projection as the document root's only child and its registry as `items` |
| Projection.PreorderIds | src/lib.rs:23-27 | read in pre-order, the ids of a projection count up from `next` in decimal, one per registry entry |
| Projection.IdsAreRegistryIndices | src/lib.rs:24-26 | over a whole file the ids parse to exactly 0..N-1 in pre-order, with no gaps or repeats |
| Projection.ParentPrecedesSubtree | src/lib.rs:23-36 | a node's id is smaller than every id in its subtree |
| Projection.ProjectRegisters | src/lib.rs:23-27 | each element of a projection resolves through `get` to the node that produced it, whatever entries surround it |
| Projection.BuiltTreeResolves | src/lib.rs:48-50 | after visiting a file, the built element and all its descendants resolve to their nodes in the final registry |
| Projection.RegisteredBelow | src/lib.rs:29-33 | below an element built for a node, the element at each path was built for the node at the same path below that node |
| Projection.EveryElementRegistered | src/lib.rs:48-50 | every element anywhere in the built document was built, against the final registry, for the file's node at the same position |
| Driver.ScalarString | src/main.rs:98 | a string result prints as itself, a boolean as `true` or `false`, a number as its printed form |
| Driver.NodeLine | src/main.rs:83-95 | an element panics exactly when `get` fails and otherwise prints the tokens of what `get` returned; attributes and text print their value; other nodes print nothing |
| Driver.RenderNodes | src/main.rs:81-97 | printing a node set prints at most one line per node and can only stop early through a `get` panic |
| Driver.RenderNodeset | src/main.rs:82-96 | the printing loop produces exactly the node-by-node definition's lines and status |
| Driver.RenderNodesConcat | src/main.rs:82-96 | printing two node sets in a row is printing their concatenation; output stops at the first panic |
| Driver.RenderNodesLabelled | src/main.rs:86-92 | every printed line starts with the display name and `": "` |
| Driver.RenderWithoutPanic | src/main.rs:81-97 | without a panic, each element, attribute and text node prints one line, in order, and nothing else does |
| Driver.RenderStopsAtCrash | src/main.rs:85 | the first element whose `get` fails ends the run in a panic, keeping the lines printed before it |
| Driver.RenderValue | src/main.rs:80-99 | a scalar result prints exactly one line, its string form; only a node set can panic |
| Driver.MatchReader | src/main.rs:69-78 | read and parse errors are returned before any line is printed; a failure never comes with output, and the only panic is `get`'s |
| Driver.MatchReaderQueries | src/main.rs:72-99 | once the text parses, the query runs on the document holding the file's projection alone; a query error is returned with no output, and a result is printed against the projection's registry |
| Driver.MatchReaderPrints | src/main.rs:74-95 | for a node-set result of elements built for nodes of the file, printing runs against the projection's registry; an element whose node has an id prints that node's tokens, one whose node has no backreference panics, and nothing panics exactly when every element's node has one |
| Driver.MatchReaderPrintsAll | src/main.rs:80-97 | when every matched element's node has a backreference, every element, attribute and text node prints one line in order and the run finishes |
| Driver.MatchReaderStopsAtMarker | src/main.rs:84-86 | the first matched element whose node has no backreference ends the output with a panic, keeping the lines of the nodes before it |
| Driver.BuiltElementPrints | src/main.rs:84-86 | for a file obeying the visitor table, the element at any path of the built document prints the tokens of the file's node at that position, and panics for want of an id exactly when that node is of one of the eight `?` kinds |
| Driver.RenderOutputLabelled | src/main.rs:80-99 | every line printed for an input carries its display name |
| Driver.MatchFileInner | src/main.rs:59-67 | a non-file succeeds silently; a file is exactly `match_reader` under its own path, and an open or read error comes back with no output |
| Driver.MatchFile | src/main.rs:44-57 | a walk error is printed and is the only way to get `Quit`; every entry continues the walk unless it panicked; an entry's matches go to standard output unchanged; `match_file` itself writes `path: message` to standard error for a failure and nothing otherwise |
| Driver.NonFileContinues | src/main.rs:61-66 | a directory continues the walk with no output at all |
| Driver.RunStdin | src/main.rs:40 | standard input is `match_reader` under `<stdin>`, except that an error becomes a panic carrying its message instead of a report |

## Left out

- The `syn` parser is a parameter `parse`. The exact field order of `syn::visit`'s default traversal is replaced by each node's given ordered children.
- `sxd_document`'s DOM is an immutable element tree. Text is modelled as an optional string on the element, and only element children are kept.
- XPath evaluation is a parameter `eval` that returns a node set of element, attribute, text and other nodes, or a scalar.
- Driver.ScalarString: does not model how the evaluator formats numbers, because that is floating-point printing inside the XPath library; a number carries its printed form.
- `to_token_stream` is a parameter `show`. A `None` from `get` prints as empty text, as the token printer does for an absent value.
- The `ignore` walker, its file-type filter and the parallelism of `build_parallel` are left out. Each entry is handled on its own by `Driver.MatchFile`.
- Driver.MatchFile: does not model what the parallel walk does after a handler panics, because that is thread behaviour of the walker; the step then carries no instruction.
- Driver.MatchFile: does not model the message Rust's default panic hook writes to standard error when an entry panics, because it comes from the runtime, not from `match_file`; a panicked entry's `err` holds only the lines `match_file` writes itself, which are none.
- `clap` argument parsing, file opening and reading, and `println!`/`eprintln!` are left out. The content of a file is given as a read result, and printing is the returned sequence of lines.
- Lossy conversion of non-UTF-8 paths to display names is left out. A path is already a string.
- `sxd_document`'s root keeps a single element child, so a second `append_child` at the root would replace the first; `Dom.AppendAt` at the root appends instead. The difference is never reached: `visit_file` runs once on a new builder, and `Projection.ProjectFile` shows the root then holds exactly one element.
- The evaluator's node set is a hash set, so the order in which `match_reader` prints its members is the set's iteration order, not document order. The model takes that order as the given sequence `nodes`; it does not model hashing.
- `usize` is taken to be 64 bits wide. Other target widths are not modelled.
- Rust panics are statuses (`Panicked`) rather than unwinding. `Registered` and the projection lemmas assume the registry has at most 2^64 entries, which is the largest a 64-bit `usize` can index.

=== FILE: ast.dfy ===
/**
  The parsed syntax tree, kept generic: a node has its kind name, whether
  the visitor table gives its kind a backreference, and its children in
  the order the visitor walks them; an identifier is a leaf holding its
  text.
 */
module Ast {
  import opened Wrappers

  datatype Syntax =
    | Node(kind: string, backref: bool, children: seq<Syntax>)
    | Ident(text: string)

  /** The kinds the visitor table marks with `?`: they are projected without a backreference. */
  const NoIdKinds: set<string> :=
    {"AttrStyle", "Data", "DataEnum", "DataStruct", "DataUnion", "MacroDelimiter", "QSelf", "RangeLimits"}

  /** Tag of the element built for `s`: the kind name, or "Ident" for an identifier. */
  function Tag(s: Syntax): string {
    match s
    case Node(kind, _, _) => kind
    case Ident(_) => "Ident"
  }

  /**
    The visitor table: a node kind gets a backreference unless it is one
    of the `?` kinds. `Tabled(s)` says every node of `s` carries the flag
    the table gives its kind.
   */
  predicate Tabled(s: Syntax)
    decreases s
  {
    match s
    case Ident(_) => true
    case Node(kind, backref, cs) =>
      && backref == (kind !in NoIdKinds)
      && forall i :: 0 <= i < |cs| ==> Tabled(cs[i])
  }

  /** The item handed to `add`: the node itself, or nothing for a kind without a backreference. */
  function ItemFor(s: Syntax): (r: Option<Syntax>)
    ensures r.Some? ==> r.value == s
    ensures r.None? <==> s.Node? && !s.backref
  {
    if s.Node? && !s.backref then None else Some(s)
  }

  /** The node reached from `s` by following the child positions `p`, if there is one. */
  function SubtreeAt(s: Syntax, p: seq<nat>): Option<Syntax>
    decreases p
  {
    if p == [] then Some(s)
    else if s.Node? && p[0] < |s.children| then SubtreeAt(s.children[p[0]], p[1..])
    else None
  }

  /**
    In a tabled tree, the nodes handed to `add` without an item are
    exactly those of the eight `?` kinds, at every depth.
   */
  lemma {:induction false} NoItemExactlyForMarkedKinds(s: Syntax, p: seq<nat>)
    requires Tabled(s) && SubtreeAt(s, p).Some?
    ensures var t := SubtreeAt(s, p).value;
      ItemFor(t).None? <==> t.Node? && t.kind in NoIdKinds
    decreases p
  {
    if p != [] {
      NoItemExactlyForMarkedKinds(s.children[p[0]], p[1..]);
    }
  }
}

=== FILE: decimal.dfy ===
/**
  Decimal text for registry indices: `format!("{}", n)` on a `usize` and
  `str::parse::<usize>()`, the two halves of the `__id__` round trip.
 */
module Decimal {
  import opened Wrappers

  /** Largest `usize` on a 64-bit target. */
  const USIZE_MAX: nat := 0xFFFF_FFFF_FFFF_FFFF

  predicate IsDigit(c: char) {
    '0' <= c <= '9'
  }

  predicate AllDigits(s: string) {
    forall i :: 0 <= i < |s| ==> IsDigit(s[i])
  }

  /** The form `format!` produces: digits only, no leading zero except for "0" itself. */
  predicate Canonical(s: string) {
    |s| > 0 && AllDigits(s) && (s[0] == '0' ==> |s| == 1)
  }

  function DigitValue(c: char): nat
    requires IsDigit(c)
  {
    (c as int) - ('0' as int)
  }

  function DigitChar(d: nat): (c: char)
    requires d < 10
    ensures IsDigit(c) && DigitValue(c) == d
  {
    (('0' as int) + d) as char
  }

  /** Value of a digit string, most significant digit first. */
  function DigitsValue(s: string): nat
    requires AllDigits(s)
  {
    if |s| == 0 then 0 else DigitsValue(s[..|s| - 1]) * 10 + DigitValue(s[|s| - 1])
  }

  /** `format!("{}", n)`. */
  function Format(n: nat): (s: string)
    ensures Canonical(s)
    ensures s[0] == '0' <==> n == 0
  {
    if n < 10 then [DigitChar(n)] else Format(n / 10) + [DigitChar(n % 10)]
  }

  /**
    `s.parse::<usize>()`: an optional leading '+', then at least one digit;
    a '-' is an invalid digit for an unsigned type, and values above
    `usize::MAX` are an overflow error.
   */
  function Parse(s: string): (r: Option<nat>)
    ensures r.Some? ==> r.value <= USIZE_MAX
    ensures r.Some? ==> |s| > 0 && AllDigits(if s[0] == '+' then s[1..] else s)
    ensures r.Some? ==> r.value == DigitsValue(if s[0] == '+' then s[1..] else s)
  {
    var ds := if |s| > 0 && s[0] == '+' then s[1..] else s;
    if |ds| > 0 && AllDigits(ds) && DigitsValue(ds) <= USIZE_MAX then Some(DigitsValue(ds)) else None
  }

  /** A leading '0' adds nothing to the value of a digit string. */
  lemma {:induction false} LeadingZeroValue(s: string)
    requires AllDigits(s)
    ensures AllDigits(['0'] + s) && DigitsValue(['0'] + s) == DigitsValue(s)
    decreases |s|
  {
    if |s| > 0 {
      var t := s[..|s| - 1];
      LeadingZeroValue(t);
      assert (['0'] + s)[..|s|] == ['0'] + t;
    }
  }

  /** `usize::from_str` accepts leading zeros: one more changes nothing. */
  lemma ParseLeadingZero(s: string)
    requires |s| > 0 && AllDigits(s)
    ensures Parse(['0'] + s) == Parse(s)
  {
    LeadingZeroValue(s);
  }

  /** `usize::from_str` accepts one leading '+' and ignores it. */
  lemma ParsePlusSign(s: string)
    requires |s| == 0 || s[0] != '+'
    ensures Parse(['+'] + s) == Parse(s)
  {
  }

  /** Any character that is not a digit, other than one leading '+', makes the text invalid. */
  lemma ParseRejects(s: string, i: nat)
    requires i < |s| && !IsDigit(s[i]) && !(i == 0 && s[0] == '+')
    ensures Parse(s) == None
  {
  }

  /** The empty text and a lone '+' hold no digit and are invalid. */
  lemma ParseRejectsEmpty()
    ensures Parse("") == None && Parse("+") == None
  {
  }

  lemma {:induction false} FormatValue(n: nat)
    ensures DigitsValue(Format(n)) == n
    decreases n
  {
    var s := Format(n);
    if n >= 10 {
      FormatValue(n / 10);
      assert s[..|s| - 1] == Format(n / 10);
    }
  }

  /** Parsing what `format!` printed gives back the index. */
  lemma ParseFormat(n: nat)
    requires n <= USIZE_MAX
    ensures Parse(Format(n)) == Some(n)
  {
    FormatValue(n);
  }

  lemma {:induction false} LeadingDigitPositive(s: string)
    requires |s| > 0 && AllDigits(s) && s[0] != '0'
    ensures DigitsValue(s) >= 1
    decreases |s|
  {
    if |s| > 1 {
      var t := s[..|s| - 1];
      assert t[0] == s[0];
      LeadingDigitPositive(t);
    }
  }

  lemma {:induction false} FormatDigits(s: string)
    requires Canonical(s)
    ensures Format(DigitsValue(s)) == s
    decreases |s|
  {
    if |s| > 1 {
      var t := s[..|s| - 1];
      assert t[0] == s[0];
      LeadingDigitPositive(t);
      FormatDigits(t);
      var n := DigitsValue(s);
      assert n / 10 == DigitsValue(t) && n % 10 == DigitValue(s[|s| - 1]);
      assert DigitChar(n % 10) == s[|s| - 1];
      assert s == t + [s[|s| - 1]];
    } else {
      assert DigitChar(DigitValue(s[0])) == s[0];
    }
  }

  /** Every canonical index text is printed back unchanged by `format!`. */
  lemma FormatParse(s: string)
    requires Canonical(s) && Parse(s).Some?
    ensures Format(Parse(s).value) == s
  {
    FormatDigits(s);
  }

  /** Distinct indices get distinct id texts, so no two elements share an `__id__`. */
  lemma FormatInjective(m: nat, n: nat)
    requires m <= USIZE_MAX && n <= USIZE_MAX && m != n
    ensures Format(m) != Format(n)
  {
    ParseFormat(m);
    ParseFormat(n);
  }
}

=== FILE: dom.dfy ===
/**
  The generic element tree the query evaluator runs on. A document is
  the forest of children of its synthetic root; an element is addressed
  by the path of child positions leading to it, and the empty path is the
  document root itself. The operations are total: at a path that names
  no element they change nothing; the lemmas say what they do at a path
  that does.
 */
module Dom {
  import opened Wrappers

  /** An element: tag, attributes, the text set on it (if any) and its element children. */
  datatype Element =
    Element(tag: string, attrs: map<string, string>, text: Option<string>, children: seq<Element>)

  type Path = seq<nat>

  /** `p` names the document root (empty) or an element of the forest `f`. */
  predicate ValidCursor(f: seq<Element>, p: Path)
    decreases p
  {
    p == [] || (p[0] < |f| && ValidCursor(f[p[0]].children, p[1..]))
  }

  /** Children of the node at `p`. */
  function ChildrenAt(f: seq<Element>, p: Path): seq<Element>
    decreases p
  {
    if p == [] then f
    else if p[0] < |f| then ChildrenAt(f[p[0]].children, p[1..])
    else []
  }

  /** The element at a non-empty path. */
  function At(f: seq<Element>, p: Path): Element
    requires p != [] && ValidCursor(f, p)
    decreases p
  {
    if |p| == 1 then f[p[0]] else At(f[p[0]].children, p[1..])
  }

  /** `append_child` of each of `es`, in order, to the node at `p`. */
  function AppendAt(f: seq<Element>, p: Path, es: seq<Element>): seq<Element>
    decreases p
  {
    if p == [] then f + es
    else if p[0] < |f| then f[p[0] := f[p[0]].(children := AppendAt(f[p[0]].children, p[1..], es))]
    else f
  }

  /** `set_text` on the element at `p`: its content becomes that text alone. */
  function SetTextAt(f: seq<Element>, p: Path, t: string): seq<Element>
    decreases p
  {
    if p == [] || p[0] >= |f| then f
    else if |p| == 1 then f[p[0] := f[p[0]].(text := Some(t), children := [])]
    else f[p[0] := f[p[0]].(children := SetTextAt(f[p[0]].children, p[1..], t))]
  }

  /** Appending at a node keeps its path valid and adds the elements after its existing children. */
  lemma {:induction false} AppendAtSpec(f: seq<Element>, p: Path, es: seq<Element>)
    requires ValidCursor(f, p)
    ensures ValidCursor(AppendAt(f, p, es), p)
    ensures ChildrenAt(AppendAt(f, p, es), p) == ChildrenAt(f, p) + es
    decreases p
  {
    if p != [] {
      AppendAtSpec(f[p[0]].children, p[1..], es);
    }
  }

  /**
    Appending at `p` changes no element except the nodes on the way to
    `p`, and those only in their children: every element stays where it
    was.
   */
  lemma {:induction false} AppendAtFrame(f: seq<Element>, p: Path, es: seq<Element>, q: Path)
    requires ValidCursor(f, p) && q != [] && ValidCursor(f, q)
    ensures ValidCursor(AppendAt(f, p, es), q)
    ensures !(q <= p) ==> At(AppendAt(f, p, es), q) == At(f, q)
    ensures q <= p ==> At(AppendAt(f, p, es), q).(children := At(f, q).children) == At(f, q)
    decreases p
  {
    if p != [] && q[0] == p[0] && |q| > 1 {
      PrefixStep(q, p);
      AppendAtFrame(f[p[0]].children, p[1..], es, q[1..]);
    }
  }

  /** Two paths with the same first step: one is a prefix of the other exactly when their tails are. */
  lemma PrefixStep(q: Path, p: Path)
    requires q != [] && p != [] && q[0] == p[0]
    ensures q <= p <==> q[1..] <= p[1..]
  {
    if q[1..] <= p[1..] {
      assert q == p[..|q|];
    }
  }

  /** Setting the text of the element at `p` replaces its content by that text alone. */
  lemma {:induction false} SetTextAtSpec(f: seq<Element>, p: Path, t: string)
    requires p != [] && ValidCursor(f, p)
    ensures ValidCursor(SetTextAt(f, p, t), p)
    ensures At(SetTextAt(f, p, t), p) == At(f, p).(text := Some(t), children := [])
    decreases p
  {
    if |p| > 1 {
      SetTextAtSpec(f[p[0]].children, p[1..], t);
    }
  }

  /** One step down from a valid path: the child positions of its node. */
  lemma {:induction false} ExtendCursor(f: seq<Element>, p: Path, k: nat)
    ensures ValidCursor(f, p + [k]) <==> ValidCursor(f, p) && k < |ChildrenAt(f, p)|
    ensures ValidCursor(f, p + [k]) ==> At(f, p + [k]) == ChildrenAt(f, p)[k]
    ensures ValidCursor(f, p + [k]) ==> ChildrenAt(f, p + [k]) == ChildrenAt(f, p)[k].children
    decreases p
  {
    if p != [] {
      assert (p + [k])[0] == p[0] && (p + [k])[1..] == p[1..] + [k];
      if p[0] < |f| {
        ExtendCursor(f[p[0]].children, p[1..], k);
      }
    } else {
      assert [k][1..] == [];
    }
  }

  /** Appending twice at one node is appending the concatenation. */
  lemma {:induction false} AppendTwice(f: seq<Element>, p: Path, xs: seq<Element>, ys: seq<Element>)
    requires ValidCursor(f, p)
    ensures AppendAt(AppendAt(f, p, xs), p, ys) == AppendAt(f, p, xs + ys)
    decreases p
  {
    if p != [] {
      AppendTwice(f[p[0]].children, p[1..], xs, ys);
    }
  }

  /** Appending no elements leaves the document as it was. */
  lemma {:induction false} AppendNothing(f: seq<Element>, p: Path)
    ensures AppendAt(f, p, []) == f
    decreases p
  {
    if p == [] {
      assert f + [] == f;
    } else if p[0] < |f| {
      AppendNothing(f[p[0]].children, p[1..]);
    }
  }

  /**
    Appending under the element just appended at `p` is the same as
    appending that element with the extra children already in place.
   */
  lemma {:induction false} AppendUnderLast(f: seq<Element>, p: Path, e: Element, ys: seq<Element>)
    requires ValidCursor(f, p)
    ensures AppendAt(AppendAt(f, p, [e]), p + [|ChildrenAt(f, p)|], ys)
         == AppendAt(f, p, [e.(children := e.children + ys)])
    decreases p
  {
    var k := |ChildrenAt(f, p)|;
    if p == [] {
      assert [k][1..] == [];
    } else {
      assert (p + [k])[0] == p[0] && (p + [k])[1..] == p[1..] + [k];
      AppendUnderLast(f[p[0]].children, p[1..], e, ys);
    }
  }

  /** Setting the text of the element just appended at `p` is appending it with that text. */
  lemma {:induction false} SetTextUnderLast(f: seq<Element>, p: Path, e: Element, t: string)
    requires ValidCursor(f, p)
    ensures SetTextAt(AppendAt(f, p, [e]), p + [|ChildrenAt(f, p)|], t)
         == AppendAt(f, p, [e.(text := Some(t), children := [])])
    decreases p
  {
    var k := |ChildrenAt(f, p)|;
    if p == [] {
      assert |[k]| == 1;
    } else {
      assert (p + [k])[0] == p[0] && (p + [k])[1..] == p[1..] + [k];
      assert |p + [k]| > 1;
      SetTextUnderLast(f[p[0]].children, p[1..], e, t);
    }
  }
}

=== FILE: driver.dfy ===
/**
  The command-line driver: read a source text, parse it, project it, run the
  query on the projection and print one line per result; and the per-entry
  decision of the directory walk. The parser, the query evaluator and the
  token printer are parameters; printing is the returned sequence of lines.
 */
module Driver {
  import opened Wrappers
  import opened Decimal
  import opened Ast
  import opened Dom
  import opened Lib
  import opened Projection

  /** A node of a query result: an element of the projection, an attribute, a text node, or any other node. */
  datatype XNode =
    | ElementNode(el: Element)
    | AttributeNode(value: string)
    | TextNode(text: string)
    | OtherNode

  /**
    A query result: a node set, in the order the evaluator yields its
    members, or a scalar. A number is
    carried as its string form: how the evaluator prints floating point is
    not part of this model.
   */
  datatype Value = Nodeset(nodes: seq<XNode>) | Boolean(b: bool) | Number(shown: string) | Str(s: string)

  /** Why a run stopped by panicking: `get` failed, or an error reached `unwrap`. */
  datatype Panic = GetFailed(why: GetPanic) | Unwrapped(msg: string)

  /** How processing one input ended. */
  datatype Status = Finished | Failed(msg: string) | Panicked(reason: Panic)

  /** The lines printed for one input, in order, and how processing ended. */
  datatype Outcome = Outcome(lines: seq<string>, status: Status)

  /** What printing one result node amounts to. */
  datatype NodeOut = Print(text: string) | Ignore | Abort(why: GetPanic)

  /** The walk's instruction after an entry. */
  datatype Decision = Continue | Quit

  /**
    What handling one walk entry does: lines to standard output, lines to
    standard error, and the walk instruction (`None` when the handler
    panicked and returned none).
   */
  datatype Step = Step(out: seq<string>, err: seq<string>, next: Option<Decision>)

  /**
    A directory entry: its path (as displayed), whether it is a file,
    and the result of opening and reading it.
   */
  datatype Entry = Entry(path: string, isFile: bool, content: Result<string, string>)

  /** The source parser (`syn::parse_file`): a syntax tree or an error message. */
  type Parser = string -> Result<Syntax, string>

  /** The query evaluator run on a document: a value or an error message. */
  type Evaluator = seq<Element> -> Result<Value, string>

  /** The token printer (`to_token_stream`) of a syntax node. */
  type Printer = Syntax -> string

  /** The display name used when reading standard input. */
  const STDIN_NAME: string := "<stdin>"

  /** One output line: the display name, a colon and a space, then the text. */
  function Line(name: string, text: string): string {
    name + ": " + text
  }

  /** Every line is labelled with `name`. */
  predicate Labelled(name: string, lines: seq<string>) {
    forall i :: 0 <= i < |lines| ==> |name| + 2 <= |lines[i]| && lines[i][..|name| + 2] == name + ": "
  }

  /** The token text of what `get` returned: the node's tokens, or nothing for `None`. */
  function Tokens(show: Printer, item: Option<Syntax>): string {
    match item
    case None => ""
    case Some(s) => show(s)
  }

  /** The scalar's string form; booleans print as `true` and `false`. */
  function ScalarString(v: Value): (r: string)
    requires !v.Nodeset?
    ensures v.Str? ==> r == v.s
    ensures v.Boolean? ==> r == (if v.b then "true" else "false")
    ensures v.Number? ==> r == v.shown
  {
    match v
    case Boolean(b) => if b then "true" else "false"
    case Number(shown) => shown
    case Str(s) => s
  }

  /**
    Printing one node: an element prints the tokens of its registry
    entry, attributes and text print their value, other nodes print
    nothing.
   */
  function NodeLine(items: seq<Syntax>, show: Printer, n: XNode): (r: NodeOut)
    ensures r.Abort? <==> n.ElementNode? && Get(items, n.el).Failure?
    ensures r.Ignore? <==> n.OtherNode?
    ensures n.AttributeNode? ==> r == Print(n.value)
    ensures n.TextNode? ==> r == Print(n.text)
    ensures n.ElementNode? && Get(items, n.el).Success? ==> r == Print(Tokens(show, Get(items, n.el).value))
  {
    match n
    case ElementNode(el) =>
      (match Get(items, el)
       case Failure(why) => Abort(why)
       case Success(item) => Print(Tokens(show, item)))
    case AttributeNode(v) => Print(v)
    case TextNode(t) => Print(t)
    case OtherNode => Ignore
  }

  /** Printing `n` panics. */
  predicate Crashes(items: seq<Syntax>, n: XNode) {
    n.ElementNode? && Get(items, n.el).Failure?
  }

  /**
    The lines a node set prints, defined node by node: each printing node
    contributes one line after those of the nodes before it; the first
    node whose printing panics ends the output there.
   */
  function RenderNodes(items: seq<Syntax>, show: Printer, name: string, nodes: seq<XNode>): (o: Outcome)
    ensures o.status != Finished ==> o.status.Panicked? && o.status.reason.GetFailed?
    ensures |o.lines| <= |nodes|
  {
    if nodes == [] then Outcome([], Finished)
    else match NodeLine(items, show, nodes[0])
      case Abort(why) => Outcome([], Panicked(GetFailed(why)))
      case Ignore => RenderNodes(items, show, name, nodes[1..])
      case Print(t) =>
        var rest := RenderNodes(items, show, name, nodes[1..]);
        Outcome([Line(name, t)] + rest.lines, rest.status)
  }

  /** The loop of `match_reader` over a node set, printing as it goes. */
  method RenderNodeset(items: seq<Syntax>, show: Printer, name: string, nodes: seq<XNode>)
    returns (lines: seq<string>, status: Status)
    ensures Outcome(lines, status) == RenderNodes(items, show, name, nodes)
  {
    lines := [];
    var i := 0;
    while i < |nodes|
      invariant 0 <= i <= |nodes|
      invariant RenderNodes(items, show, name, nodes)
             == Outcome(lines + RenderNodes(items, show, name, nodes[i..]).lines,
                        RenderNodes(items, show, name, nodes[i..]).status)
    {
      assert nodes[i..][1..] == nodes[i + 1..];
      match NodeLine(items, show, nodes[i]) {
        case Abort(why) =>
          return lines, Panicked(GetFailed(why));
        case Ignore =>
        case Print(t) =>
          assert lines + ([Line(name, t)] + RenderNodes(items, show, name, nodes[i + 1..]).lines)
              == (lines + [Line(name, t)]) + RenderNodes(items, show, name, nodes[i + 1..]).lines;
          lines := lines + [Line(name, t)];
      }
      i := i + 1;
    }
    assert lines + [] == lines;
    status := Finished;
  }

  /** Rendering two node sets one after the other is rendering their concatenation. */
  lemma {:induction false} RenderNodesConcat(items: seq<Syntax>, show: Printer, name: string,
                                               xs: seq<XNode>, ys: seq<XNode>)
    ensures var a := RenderNodes(items, show, name, xs);
      var b := RenderNodes(items, show, name, ys);
      RenderNodes(items, show, name, xs + ys)
        == (if a.status == Finished then Outcome(a.lines + b.lines, b.status) else a)
    decreases xs
  {
    if xs == [] {
      assert xs + ys == ys;
    } else {
      assert (xs + ys)[0] == xs[0] && (xs + ys)[1..] == xs[1..] + ys;
      RenderNodesConcat(items, show, name, xs[1..], ys);
      var r := RenderNodes(items, show, name, xs[1..]);
      var b := RenderNodes(items, show, name, ys);
      if r.status == Finished {
        match NodeLine(items, show, xs[0])
        case Abort(_) =>
        case Ignore =>
        case Print(t) =>
          assert [Line(name, t)] + (r.lines + b.lines) == ([Line(name, t)] + r.lines) + b.lines;
      }
    }
  }

  /** Every line a node set prints carries the display name. */
  lemma {:induction false} RenderNodesLabelled(items: seq<Syntax>, show: Printer, name: string,
                                                 nodes: seq<XNode>)
    ensures Labelled(name, RenderNodes(items, show, name, nodes).lines)
    decreases nodes
  {
    if nodes != [] {
      RenderNodesLabelled(items, show, name, nodes[1..]);
    }
  }

  /** No node of the set panics when printed. */
  predicate NoCrash(items: seq<Syntax>, nodes: seq<XNode>) {
    forall i :: 0 <= i < |nodes| ==> !Crashes(items, nodes[i])
  }

  /**
    The text each printing node shows, in node-set order: the
    independent, filter-then-map reading of the loop.
   */
  function Shown(items: seq<Syntax>, show: Printer, nodes: seq<XNode>): seq<string>
    requires NoCrash(items, nodes)
  {
    if nodes == [] then []
    else
      var rest := Shown(items, show, nodes[1..]);
      match nodes[0]
      case ElementNode(el) => [Tokens(show, Get(items, el).value)] + rest
      case AttributeNode(v) => [v] + rest
      case TextNode(t) => [t] + rest
      case OtherNode => rest
  }

  /** The number of nodes of the set that print nothing. */
  function Others(nodes: seq<XNode>): (k: nat)
    ensures k <= |nodes|
  {
    if nodes == [] then 0 else (if nodes[0].OtherNode? then 1 else 0) + Others(nodes[1..])
  }

  /**
    A node set in which nothing panics prints exactly one labelled line
    per element, attribute and text node, in order, and nothing for the
    other nodes.
   */
  lemma {:induction false} RenderWithoutPanic(items: seq<Syntax>, show: Printer, name: string,
                                                nodes: seq<XNode>)
    requires NoCrash(items, nodes)
    ensures var o := RenderNodes(items, show, name, nodes);
      && o.status == Finished
      && |o.lines| == |Shown(items, show, nodes)| == |nodes| - Others(nodes)
      && forall i :: 0 <= i < |o.lines| ==> o.lines[i] == Line(name, Shown(items, show, nodes)[i])
    decreases nodes
  {
    if nodes != [] {
      assert !Crashes(items, nodes[0]);
      assert NoCrash(items, nodes[1..]) by {
        forall i | 0 <= i < |nodes[1..]|
          ensures !Crashes(items, nodes[1..][i])
        {
          assert nodes[1..][i] == nodes[i + 1];
        }
      }
      RenderWithoutPanic(items, show, name, nodes[1..]);
    }
  }

  /**
    The first node whose printing panics stops the output: the lines
    printed are those of the nodes before it, and the run panics with
    `get`'s reason.
   */
  lemma RenderStopsAtCrash(items: seq<Syntax>, show: Printer, name: string, nodes: seq<XNode>, k: nat)
    requires k < |nodes| && Crashes(items, nodes[k]) && NoCrash(items, nodes[..k])
    ensures RenderNodes(items, show, name, nodes)
         == Outcome(RenderNodes(items, show, name, nodes[..k]).lines,
                    Panicked(GetFailed(Get(items, nodes[k].el).error)))
  {
    RenderWithoutPanic(items, show, name, nodes[..k]);
    assert nodes == nodes[..k] + nodes[k..];
    RenderNodesConcat(items, show, name, nodes[..k], nodes[k..]);
    assert nodes[k..][0] == nodes[k];
  }

  /**
    `match_reader`'s printing of a query result: a node set node by node,
    a scalar as one line of its string form.
   */
  function RenderValue(items: seq<Syntax>, show: Printer, name: string, v: Value): (o: Outcome)
    ensures !v.Nodeset? ==>
      o.status == Finished && |o.lines| == 1 && o.lines[0] == Line(name, ScalarString(v))
    ensures v.Nodeset? ==> |o.lines| <= |v.nodes|
    ensures o.status != Finished ==> v.Nodeset? && o.status.Panicked?
  {
    match v
    case Nodeset(nodes) => RenderNodes(items, show, name, nodes)
    case _ => Outcome([Line(name, ScalarString(v))], Finished)
  }

  /**
    `match_reader`: read the text, parse it, project it into a fresh
    document, evaluate the query on the document, then print. A read,
    parse or query error returns it before anything is printed.
   */
  function MatchReader(read: Result<string, string>, parse: Parser,
                       eval: Evaluator, show: Printer, name: string): (o: Outcome)
    ensures o.status.Failed? ==> o.lines == []
    ensures read.Failure? ==> o == Outcome([], Failed(read.error))
    ensures read.Success? && parse(read.value).Failure? ==> o == Outcome([], Failed(parse(read.value).error))
    ensures o.status.Panicked? ==> o.status.reason.GetFailed?
  {
    match read
    case Failure(e) => Outcome([], Failed(e))
    case Success(content) =>
      match parse(content)
      case Failure(e) => Outcome([], Failed(e))
      case Success(file) =>
        var b := Visit(New(), file);
        match eval(b.doc)
        case Failure(e) => Outcome([], Failed(e))
        case Success(v) => RenderValue(b.items, show, name, v)
  }

  /**
    What a node-set result prints, when each matched element is one the
    builder made for a node `syn[i]` of the file: the result is printed
    against the projection's registry, an element whose node has an id
    prints that node's tokens, and one of a `?` kind makes `get` panic.
   */
  lemma MatchReaderPrints(content: string, file: Syntax, parse: Parser,
                          eval: Evaluator, show: Printer, name: string,
                          nodes: seq<XNode>, syn: seq<Syntax>)
    requires parse(content) == Success(file)
    requires |Project(file, 0).items| <= USIZE_MAX + 1
    requires eval([Project(file, 0).el]) == Success(Nodeset(nodes))
    requires |syn| == |nodes|
    requires forall i :: 0 <= i < |nodes| && nodes[i].ElementNode? ==>
      Registered(nodes[i].el, syn[i], Project(file, 0).items)
    ensures MatchReader(Success(content), parse, eval, show, name)
         == RenderNodes(Project(file, 0).items, show, name, nodes)
    ensures forall i :: 0 <= i < |nodes| && nodes[i].ElementNode? ==>
      NodeLine(Project(file, 0).items, show, nodes[i])
        == (if ItemFor(syn[i]).Some? then Print(show(syn[i])) else Abort(MissingId))
    ensures NoCrash(Project(file, 0).items, nodes)
        <==> forall i :: 0 <= i < |nodes| && nodes[i].ElementNode? ==> ItemFor(syn[i]).Some?
  {
    ProjectFile(file);
    forall i | 0 <= i < |nodes| && nodes[i].ElementNode?
      ensures NodeLine(Project(file, 0).items, show, nodes[i])
           == (if ItemFor(syn[i]).Some? then Print(show(syn[i])) else Abort(MissingId))
    {
      assert Registered(nodes[i].el, syn[i], Project(file, 0).items);
    }
  }

  /**
    When no matched element is of a `?` kind, every printing node of the
    result gives one line, in order, and the run finishes.
   */
  lemma MatchReaderPrintsAll(content: string, file: Syntax, parse: Parser,
                             eval: Evaluator, show: Printer, name: string,
                             nodes: seq<XNode>, syn: seq<Syntax>)
    requires parse(content) == Success(file)
    requires |Project(file, 0).items| <= USIZE_MAX + 1
    requires eval([Project(file, 0).el]) == Success(Nodeset(nodes))
    requires |syn| == |nodes|
    requires forall i :: 0 <= i < |nodes| && nodes[i].ElementNode? ==>
      Registered(nodes[i].el, syn[i], Project(file, 0).items)
    requires forall i :: 0 <= i < |nodes| && nodes[i].ElementNode? ==> ItemFor(syn[i]).Some?
    ensures NoCrash(Project(file, 0).items, nodes)
    ensures MatchReader(Success(content), parse, eval, show, name).status == Finished
    ensures |MatchReader(Success(content), parse, eval, show, name).lines|
         == |Shown(Project(file, 0).items, show, nodes)|
         == |nodes| - Others(nodes)
    ensures forall i :: 0 <= i < |MatchReader(Success(content), parse, eval, show, name).lines| ==>
      MatchReader(Success(content), parse, eval, show, name).lines[i]
        == Line(name, Shown(Project(file, 0).items, show, nodes)[i])
  {
    MatchReaderPrints(content, file, parse, eval, show, name, nodes, syn);
    RenderWithoutPanic(Project(file, 0).items, show, name, nodes);
  }

  /**
    The first matched element of a `?` kind stops the output: the lines
    printed are those of the nodes before it, and the run panics because
    the element has no id.
   */
  lemma MatchReaderStopsAtMarker(content: string, file: Syntax, parse: Parser,
                                 eval: Evaluator, show: Printer, name: string,
                                 nodes: seq<XNode>, syn: seq<Syntax>, k: nat)
    requires parse(content) == Success(file)
    requires |Project(file, 0).items| <= USIZE_MAX + 1
    requires eval([Project(file, 0).el]) == Success(Nodeset(nodes))
    requires |syn| == |nodes|
    requires forall i :: 0 <= i < |nodes| && nodes[i].ElementNode? ==>
      Registered(nodes[i].el, syn[i], Project(file, 0).items)
    requires k < |nodes| && nodes[k].ElementNode? && ItemFor(syn[k]).None?
    requires forall i :: 0 <= i < k && nodes[i].ElementNode? ==> ItemFor(syn[i]).Some?
    ensures MatchReader(Success(content), parse, eval, show, name)
         == Outcome(RenderNodes(Project(file, 0).items, show, name, nodes[..k]).lines,
                    Panicked(GetFailed(MissingId)))
  {
    MatchReaderPrints(content, file, parse, eval, show, name, nodes, syn);
    var items := Project(file, 0).items;
    assert NoCrash(items, nodes[..k]) by {
      forall i | 0 <= i < k
        ensures !Crashes(items, nodes[..k][i])
      {
        assert nodes[..k][i] == nodes[i];
      }
    }
    RenderStopsAtCrash(items, show, name, nodes, k);
  }

  /**
    For a file whose tree obeys the visitor table: the element at any
    path of the built document, when the query matches it, prints the
    tokens of the file's node at the same position, or makes `get` panic
    for want of an id exactly when that node is of one of the eight `?`
    kinds.
   */
  lemma BuiltElementPrints(file: Syntax, show: Printer, p: Path)
    requires Tabled(file)
    requires |Project(file, 0).items| <= USIZE_MAX + 1
    requires p != [] && ValidCursor(Visit(New(), file).doc, p)
    ensures SubtreeAt(file, p[1..]).Some?
    ensures NodeLine(Visit(New(), file).items, show, ElementNode(At(Visit(New(), file).doc, p)))
         == if SubtreeAt(file, p[1..]).value.Node? && SubtreeAt(file, p[1..]).value.kind in NoIdKinds
            then Abort(MissingId)
            else Print(show(SubtreeAt(file, p[1..]).value))
  {
    EveryElementRegistered(file, p);
    NoItemExactlyForMarkedKinds(file, p[1..]);
  }

  /**
    Once the text parses, the query sees the document holding the file's
    projection alone: a query error comes back with no output, and a
    result is printed against the projection's registry.
   */
  lemma MatchReaderQueries(content: string, file: Syntax, parse: Parser,
                           eval: Evaluator, show: Printer, name: string)
    requires parse(content) == Success(file)
    ensures MatchReader(Success(content), parse, eval, show, name) ==
            match eval([Project(file, 0).el])
            case Failure(e) => Outcome([], Failed(e))
            case Success(v) => RenderValue(Project(file, 0).items, show, name, v)
  {
    ProjectFile(file);
  }

  /** `match_file_inner`: a file is read and matched under its path; anything else succeeds with no output. */
  function MatchFileInner(entry: Entry, parse: Parser,
                          eval: Evaluator, show: Printer): (o: Outcome)
    ensures !entry.isFile ==> o == Outcome([], Finished)
    ensures entry.isFile && entry.content.Failure? ==> o == Outcome([], Failed(entry.content.error))
    ensures entry.isFile ==> o == MatchReader(entry.content, parse, eval, show, entry.path)
    ensures Labelled(entry.path, o.lines)
  {
    if entry.isFile then
      var o := MatchReader(entry.content, parse, eval, show, entry.path);
      RenderOutputLabelled(entry.content, parse, eval, show, entry.path);
      o
    else Outcome([], Finished)
  }

  /** Every line `match_reader` prints carries the display name. */
  lemma RenderOutputLabelled(read: Result<string, string>, parse: Parser,
                             eval: Evaluator, show: Printer, name: string)
    ensures Labelled(name, MatchReader(read, parse, eval, show, name).lines)
  {
    if read.Success? && parse(read.value).Success? {
      var b := Visit(New(), parse(read.value).value);
      var v := eval(b.doc);
      if v.Success? && v.value.Nodeset? {
        RenderNodesLabelled(b.items, show, name, v.value.nodes);
      }
    }
  }

  /**
    `match_file`: a walk error is printed and stops the walk; any entry
    continues it, a failure being printed to standard error after the
    entry's path; a panic leaves no instruction.
   */
  function MatchFile(entry: Result<Entry, string>, parse: Parser,
                     eval: Evaluator, show: Printer): (r: Step)
    ensures r.next == Some(Quit) <==> entry.Failure?
    ensures entry.Failure? ==> r.out == [] && r.err == [entry.error]
    ensures entry.Success? ==> Labelled(entry.value.path, r.out)
    ensures entry.Success? ==> r.out == MatchFileInner(entry.value, parse, eval, show).lines
    ensures entry.Success? && !MatchFileInner(entry.value, parse, eval, show).status.Failed? ==> r.err == []
    ensures entry.Success? ==>
      (r.next.None? <==> MatchFileInner(entry.value, parse, eval, show).status.Panicked?)
    ensures entry.Success? && MatchFileInner(entry.value, parse, eval, show).status.Failed?
            ==> && r.out == []
                && r.err == [Line(entry.value.path, MatchFileInner(entry.value, parse, eval, show).status.msg)]
  {
    match entry
    case Failure(e) => Step([], [e], Some(Quit))
    case Success(en) =>
      var o := MatchFileInner(en, parse, eval, show);
      match o.status
      case Finished => Step(o.lines, [], Some(Continue))
      case Failed(msg) => Step(o.lines, [Line(en.path, msg)], Some(Continue))
      case Panicked(_) => Step(o.lines, [], None)
  }

  /** A directory, or any other entry that is not a file, continues the walk with no output at all. */
  lemma NonFileContinues(entry: Entry, parse: Parser,
                         eval: Evaluator, show: Printer)
    requires !entry.isFile
    ensures MatchFile(Success(entry), parse, eval, show) == Step([], [], Some(Continue))
  {
  }

  /** Reading standard input: matched under `<stdin>`, with any error unwrapped into a panic. */
  function RunStdin(read: Result<string, string>, parse: Parser,
                    eval: Evaluator, show: Printer): (o: Outcome)
    ensures !o.status.Failed?
    ensures Labelled(STDIN_NAME, o.lines)
    ensures read.Failure? ==> o == Outcome([], Panicked(Unwrapped(read.error)))
    ensures MatchReader(read, parse, eval, show, STDIN_NAME).status.Failed?
            ==> o == Outcome([], Panicked(Unwrapped(
                      MatchReader(read, parse, eval, show, STDIN_NAME).status.msg)))
    ensures !MatchReader(read, parse, eval, show, STDIN_NAME).status.Failed?
            ==> o == MatchReader(read, parse, eval, show, STDIN_NAME)
  {
    var r := MatchReader(read, parse, eval, show, STDIN_NAME);
    RenderOutputLabelled(read, parse, eval, show, STDIN_NAME);
    match r.status
    case Failed(msg) => Outcome(r.lines, Panicked(Unwrapped(msg)))
    case _ => r
  }
}

=== FILE: lib.dfy ===
/**
  The projection builder: a visitor over the syntax tree that creates one
  element per visited node, appends the node to an index-addressed
  registry and records its index in the element's `__id__` attribute.
 */
module Lib {
  import opened Wrappers
  import opened Decimal
  import opened Ast
  import opened Dom

  /** Name of the attribute holding the registry index. */
  const ID_ATTR: string := "__id__"

  /**
    Builder state: the document (the children of its root), the element
    new elements are attached under (`None` means the document root), and
    the registry of nodes that received an id.
   */
  datatype Builder = Builder(doc: seq<Element>, root: Option<Path>, items: seq<Syntax>)

  /** Why `get` panics: no `__id__` attribute, or one that does not parse as a `usize`. */
  datatype GetPanic = MissingId | BadIndex

  function Cursor(root: Option<Path>): Path {
    match root
    case None => []
    case Some(p) => p
  }

  /** The builder's cursor names an element of its document (or the document root). */
  predicate Valid(b: Builder) {
    ValidCursor(b.doc, Cursor(b.root))
  }

  /** `Builder::new` over a fresh, empty document. */
  function New(): (b: Builder)
    ensures Valid(b) && b.root.None? && b.items == []
  {
    Builder([], None, [])
  }

  /**
    The part of `add` before the callback runs: create the element, give it
    the next index when there is an item, attach it as the last child of
    the current root, and make it the current root.
   */
  function Enter(b: Builder, name: string, item: Option<Syntax>): Builder {
    var c := Cursor(b.root);
    var el := Element(name, if item.Some? then map[ID_ATTR := Format(|b.items|)] else map[], None, []);
    var items := if item.Some? then b.items + [item.value] else b.items;
    Builder(AppendAt(b.doc, c, [el]), Some(c + [|ChildrenAt(b.doc, c)|]), items)
  }

  /**
    What `add` does before its callback: the new element is the last child
    of the current root (the document root when there is none), it becomes
    the current root, it is tagged with the name and has no content yet;
    with an item, the item is appended to the registry and the element's
    `__id__` is the registry length before the call, in decimal; without
    one, the registry is unchanged and the element has no attributes.
   */
  lemma EnterSpec(b: Builder, name: string, item: Option<Syntax>)
    requires Valid(b)
    ensures var r := Enter(b, name, item);
      && Valid(r)
      && r.root == Some(Cursor(b.root) + [|ChildrenAt(b.doc, Cursor(b.root))|])
      && ChildrenAt(r.doc, Cursor(b.root)) == ChildrenAt(b.doc, Cursor(b.root)) + [At(r.doc, r.root.value)]
      && At(r.doc, r.root.value).tag == name && At(r.doc, r.root.value).text.None?
      && At(r.doc, r.root.value).children == []
      && (item.Some? ==> r.items == b.items + [item.value])
      && (item.Some? ==> At(r.doc, r.root.value).attrs == map[ID_ATTR := Format(|b.items|)])
      && (item.None? ==> r.items == b.items && At(r.doc, r.root.value).attrs == map[])
  {
    var c := Cursor(b.root);
    var r := Enter(b, name, item);
    var el := Element(name, if item.Some? then map[ID_ATTR := Format(|b.items|)] else map[], None, []);
    AppendAtSpec(b.doc, c, [el]);
    ExtendCursor(r.doc, c, |ChildrenAt(b.doc, c)|);
  }

  /**
    One visitor step (`visit!` for node kinds, `visit_ident` for
    identifiers): `add` with the kind's name and item, whose callback
    walks the children, or sets the identifier's text; the previous root
    is put back afterwards.
   */
  function Visit(b: Builder, s: Syntax): (r: Builder)
    ensures r.root == b.root
    decreases s, 1
  {
    var prev := b.root;
    var b1 := Enter(b, Tag(s), ItemFor(s));
    var b2 := match s
      case Ident(t) => b1.(doc := SetTextAt(b1.doc, Cursor(b1.root), t))
      case Node(_, _, cs) => VisitAll(b1, cs);
    b2.(root := prev)
  }

  /** The default traversal: visit each child in order under the same root. */
  function VisitAll(b: Builder, cs: seq<Syntax>): (r: Builder)
    ensures r.root == b.root
    decreases cs, 0
  {
    if cs == [] then b else VisitAll(Visit(b, cs[0]), cs[1..])
  }

  /**
    `Builder::get`: read the `__id__` attribute (panicking when it is
    missing or not a `usize`) and look the index up in the registry,
    yielding `None` past its end.
   */
  function Get(items: seq<Syntax>, el: Element): Result<Option<Syntax>, GetPanic>
  {
    if ID_ATTR !in el.attrs then Failure(MissingId)
    else match Parse(el.attrs[ID_ATTR])
      case None => Failure(BadIndex)
      case Some(idx) => Success(if idx < |items| then Some(items[idx]) else None)
  }

  /**
    What `get` answers: it panics without an `__id__` or with one that is
    not a `usize`; otherwise it yields the registry entry at that index,
    or `None` exactly when the index is past the end.
   */
  lemma GetSpec(items: seq<Syntax>, el: Element)
    ensures ID_ATTR !in el.attrs <==> Get(items, el) == Failure(MissingId)
    ensures ID_ATTR in el.attrs ==> (Get(items, el) == Failure(BadIndex) <==> Parse(el.attrs[ID_ATTR]).None?)
    ensures Get(items, el).Success? ==>
      (Get(items, el).value.Some? <==> Parse(el.attrs[ID_ATTR]).value < |items|)
    ensures Get(items, el).Success? && Get(items, el).value.Some?
            ==> Get(items, el).value.value == items[Parse(el.attrs[ID_ATTR]).value]
  {
  }

  /** An element carrying index `i` resolves to registry entry `i`, or to nothing past the end. */
  lemma GetFormatted(items: seq<Syntax>, el: Element, i: nat)
    requires ID_ATTR in el.attrs && el.attrs[ID_ATTR] == Format(i) && i <= USIZE_MAX
    ensures i < |items| ==> Get(items, el) == Success(Some(items[i]))
    ensures i >= |items| ==> Get(items, el) == Success(None)
  {
    ParseFormat(i);
  }
}

=== FILE: projection.dfy ===
/**
  The projection as a pure pre-order function of the syntax tree, and the
  facts that tie the builder to it: the builder produces exactly this
  projection, ids are the registry indices in pre-order, and every id
  resolves to the node that produced its element.
 */
module Projection {
  import opened Wrappers
  import opened Decimal
  import opened Ast
  import opened Dom
  import opened Lib

  /** The element built for one syntax node, and the registry entries it adds. */
  datatype Projected = Projected(el: Element, items: seq<Syntax>)

  /** The elements built for a sequence of sibling nodes, and their registry entries. */
  datatype ProjectedAll = ProjectedAll(els: seq<Element>, items: seq<Syntax>)

  /** Project `s` when the registry already holds `next` entries. */
  function Project(s: Syntax, next: nat): Projected
    decreases s, 1
  {
    var own := if ItemFor(s).Some? then [s] else [];
    var attrs := if ItemFor(s).Some? then map[ID_ATTR := Format(next)] else map[];
    match s
    case Ident(t) => Projected(Element("Ident", attrs, Some(t), []), own)
    case Node(k, _, cs) =>
      var kids := ProjectAll(cs, next + |own|);
      Projected(Element(k, attrs, None, kids.els), own + kids.items)
  }

  function ProjectAll(cs: seq<Syntax>, next: nat): ProjectedAll
    decreases cs, 0
  {
    if cs == [] then ProjectedAll([], [])
    else
      var head := Project(cs[0], next);
      var tail := ProjectAll(cs[1..], next + |head.items|);
      ProjectedAll([head.el] + tail.els, head.items + tail.items)
  }

  /** The `__id__` values of a tree, in pre-order (parent before children, children in order). */
  function Ids(e: Element): seq<string>
    decreases e, 1
  {
    (if ID_ATTR in e.attrs then [e.attrs[ID_ATTR]] else []) + IdsAll(e.children)
  }

  function IdsAll(es: seq<Element>): seq<string>
    decreases es, 0
  {
    if es == [] then [] else Ids(es[0]) + IdsAll(es[1..])
  }

  /**
    `e` is the element built for `s` against registry `reg`: it is tagged
    with the kind name; it resolves through `get` to `s` exactly when the
    kind gets an id, and carries no `__id__` otherwise; an identifier
    element holds the identifier's text and nothing else; a node's element
    has one child per syntax child, in order, each built for that child.
   */
  predicate Registered(e: Element, s: Syntax, reg: seq<Syntax>)
    decreases s
  {
    && e.tag == Tag(s)
    && (ItemFor(s).Some? ==> Get(reg, e) == Success(Some(s)))
    && (ItemFor(s).None? ==> ID_ATTR !in e.attrs)
    && match s
       case Ident(t) => e.text == Some(t) && e.children == []
       case Node(_, _, cs) =>
         && e.text == None
         && |e.children| == |cs|
         && forall i {:trigger Registered(e.children[i], cs[i], reg)} ::
              0 <= i < |cs| ==> Registered(e.children[i], cs[i], reg)
  }

  /** The builder's visit of `s` appends exactly `Project(s, |items|)` under the current root. */
  lemma {:induction false} VisitProjects(b: Builder, s: Syntax)
    requires Valid(b)
    ensures Visit(b, s) == b.(doc := AppendAt(b.doc, Cursor(b.root), [Project(s, |b.items|).el]),
                              items := b.items + Project(s, |b.items|).items)
    decreases s, 2
  {
    match s
    case Ident(t) => VisitIdentProjects(b, t);
    case Node(kind, backref, cs) => VisitNodeProjects(b, kind, backref, cs);
  }

  lemma VisitIdentProjects(b: Builder, t: string)
    requires Valid(b)
    ensures Visit(b, Ident(t)) == b.(doc := AppendAt(b.doc, Cursor(b.root), [Project(Ident(t), |b.items|).el]),
                                     items := b.items + Project(Ident(t), |b.items|).items)
  {
    var c := Cursor(b.root);
    var e0 := Element("Ident", map[ID_ATTR := Format(|b.items|)], None, []);
    SetTextUnderLast(b.doc, c, e0, t);
  }

  lemma {:induction false} VisitNodeProjects(b: Builder, kind: string, backref: bool, cs: seq<Syntax>)
    requires Valid(b)
    ensures Visit(b, Node(kind, backref, cs))
         == b.(doc := AppendAt(b.doc, Cursor(b.root), [Project(Node(kind, backref, cs), |b.items|).el]),
               items := b.items + Project(Node(kind, backref, cs), |b.items|).items)
    decreases cs, 1
  {
    var s := Node(kind, backref, cs);
    var c := Cursor(b.root);
    var own := if ItemFor(s).Some? then [s] else [];
    var e0 := Element(kind, if ItemFor(s).Some? then map[ID_ATTR := Format(|b.items|)] else map[], None, []);
    var b1 := Enter(b, kind, ItemFor(s));
    var f := ProjectAll(cs, |b.items| + |own|);
    assert b1 == Builder(AppendAt(b.doc, c, [e0]), Some(c + [|ChildrenAt(b.doc, c)|]), b.items + own);
    assert Valid(b1) && |b1.items| == |b.items| + |own| by {
      EnterSpec(b, kind, ItemFor(s));
    }
    assert Visit(b, s) == VisitAll(b1, cs).(root := b.root);
    assert VisitAll(b1, cs) == b1.(doc := AppendAt(b1.doc, Cursor(b1.root), f.els), items := b1.items + f.items) by {
      VisitAllProjects(b1, cs);
    }
    assert Project(s, |b.items|) == Projected(e0.(children := e0.children + f.els), own + f.items) by {
      assert e0.children + f.els == f.els;
    }
    assert AppendAt(b1.doc, Cursor(b1.root), f.els) == AppendAt(b.doc, c, [e0.(children := e0.children + f.els)]) by {
      AppendUnderLast(b.doc, c, e0, f.els);
    }
    assert b1.items + f.items == b.items + (own + f.items);
  }

  /** Visiting siblings appends their projections, in order, under the current root. */
  lemma {:induction false} VisitAllProjects(b: Builder, cs: seq<Syntax>)
    requires Valid(b)
    ensures VisitAll(b, cs) == b.(doc := AppendAt(b.doc, Cursor(b.root), ProjectAll(cs, |b.items|).els),
                                  items := b.items + ProjectAll(cs, |b.items|).items)
    decreases cs, 0
  {
    var c := Cursor(b.root);
    if cs == [] {
      AppendNothing(b.doc, c);
    } else {
      var head := Project(cs[0], |b.items|);
      var b1 := Visit(b, cs[0]);
      VisitProjects(b, cs[0]);
      AppendAtSpec(b.doc, c, [head.el]);
      VisitAllProjects(b1, cs[1..]);
      AppendTwice(b.doc, c, [head.el], ProjectAll(cs[1..], |b1.items|).els);
      assert b.items + head.items + ProjectAll(cs[1..], |b1.items|).items
          == b.items + (head.items + ProjectAll(cs[1..], |b1.items|).items);
    }
  }

  /**
    Visiting a whole file from `Builder::new` leaves the file's element as
    the document root's only child, the cursor back at the document root,
    and the registry equal to the projection's.
   */
  lemma ProjectFile(file: Syntax)
    ensures Visit(New(), file) == Builder([Project(file, 0).el], None, Project(file, 0).items)
  {
    VisitProjects(New(), file);
  }

  /** `ids` are the decimal texts of `next`, `next + 1`, ..., in order. */
  predicate Counts(ids: seq<string>, next: nat)
    decreases |ids|
  {
    ids == [] || (ids[0] == Format(next) && Counts(ids[1..], next + 1))
  }

  /** Counting up from `next` and then on from where it stopped is counting up from `next`. */
  lemma {:induction false} CountsConcat(h: seq<string>, t: seq<string>, next: nat)
    requires Counts(h, next) && Counts(t, next + |h|)
    ensures Counts(h + t, next)
    decreases |h|
  {
    if h == [] {
      assert h + t == t;
    } else {
      assert (h + t)[0] == h[0] && (h + t)[1..] == h[1..] + t;
      CountsConcat(h[1..], t, next + 1);
    }
  }

  /** The `i`-th of a run counting up from `next` is the text of `next + i`. */
  lemma {:induction false} CountsAt(ids: seq<string>, next: nat, i: nat)
    requires Counts(ids, next) && i < |ids|
    ensures ids[i] == Format(next + i)
    decreases i
  {
    if i > 0 {
      CountsAt(ids[1..], next + 1, i - 1);
    }
  }

  /** Ids are handed out in pre-order, one per registry entry, counting up from `next`. */
  lemma {:induction false} PreorderIds(s: Syntax, next: nat)
    ensures |Ids(Project(s, next).el)| == |Project(s, next).items|
    ensures Counts(Ids(Project(s, next).el), next)
    decreases s, 1
  {
    var p := Project(s, next);
    var own := if ItemFor(s).Some? then [s] else [];
    var head: seq<string> := if ID_ATTR in p.el.attrs then [p.el.attrs[ID_ATTR]] else [];
    assert |head| == |own| && Counts(head, next) by {
      if ItemFor(s).Some? {
        assert head == [Format(next)] && head[1..] == [];
      }
    }
    match s
    case Ident(t) =>
      assert Ids(p.el) == head + [];
    case Node(k, _, cs) =>
      var kids := ProjectAll(cs, next + |own|);
      assert Ids(p.el) == head + IdsAll(kids.els);
      PreorderIdsAll(cs, next + |own|);
      CountsConcat(head, IdsAll(kids.els), next);
  }

  lemma {:induction false} PreorderIdsAll(cs: seq<Syntax>, next: nat)
    ensures |IdsAll(ProjectAll(cs, next).els)| == |ProjectAll(cs, next).items|
    ensures Counts(IdsAll(ProjectAll(cs, next).els), next)
    decreases cs, 0
  {
    if cs != [] {
      var f := ProjectAll(cs, next);
      var head := Project(cs[0], next);
      var tail := ProjectAll(cs[1..], next + |head.items|);
      assert f.els[0] == head.el && f.els[1..] == tail.els;
      assert IdsAll(f.els) == Ids(head.el) + IdsAll(tail.els);
      PreorderIds(cs[0], next);
      PreorderIdsAll(cs[1..], next + |head.items|);
      CountsConcat(Ids(head.el), IdsAll(tail.els), next);
    }
  }

  /**
    Over a whole projection the ids, read in pre-order, parse to exactly
    0, 1, ..., N-1 where N is the registry length: no gaps, no repeats.
   */
  lemma IdsAreRegistryIndices(file: Syntax)
    requires |Project(file, 0).items| <= USIZE_MAX + 1
    ensures |Ids(Project(file, 0).el)| == |Project(file, 0).items|
    ensures forall i :: 0 <= i < |Ids(Project(file, 0).el)| ==> Parse(Ids(Project(file, 0).el)[i]) == Some(i)
  {
    PreorderIds(file, 0);
    var ids := Ids(Project(file, 0).el);
    forall i | 0 <= i < |ids|
      ensures Parse(ids[i]) == Some(i)
    {
      CountsAt(ids, 0, i);
      ParseFormat(i);
    }
  }

  /** An element with an id gets a smaller id than every element of its subtree. */
  lemma ParentPrecedesSubtree(s: Syntax, next: nat)
    requires ItemFor(s).Some?
    requires next + |Project(s, next).items| <= USIZE_MAX + 1
    ensures |Ids(Project(s, next).el)| > 0
    ensures Parse(Ids(Project(s, next).el)[0]) == Some(next)
    ensures forall i :: 1 <= i < |Ids(Project(s, next).el)| ==>
      Parse(Ids(Project(s, next).el)[i]).Some? && Parse(Ids(Project(s, next).el)[i]).value > next
  {
    PreorderIds(s, next);
    var ids := Ids(Project(s, next).el);
    forall i | 0 <= i < |ids|
      ensures Parse(ids[i]) == Some(next + i)
    {
      CountsAt(ids, next, i);
      ParseFormat(next + i);
    }
  }

  /** Each element of the projection of `s` is built for its node, within any enclosing registry. */
  lemma {:induction false} ProjectRegisters(s: Syntax, pre: seq<Syntax>, post: seq<Syntax>)
    requires |pre| + |Project(s, |pre|).items| <= USIZE_MAX + 1
    ensures Registered(Project(s, |pre|).el, s, pre + Project(s, |pre|).items + post)
    decreases s, 1
  {
    var p := Project(s, |pre|);
    var reg := pre + p.items + post;
    var own := if ItemFor(s).Some? then [s] else [];
    if ItemFor(s).Some? {
      assert Get(reg, p.el) == Success(Some(s)) by {
        assert reg[|pre|] == s;
        GetFormatted(reg, p.el, |pre|);
      }
    }
    match s
    case Ident(_) =>
    case Node(k, _, cs) =>
      var kids := ProjectAll(cs, |pre| + |own|);
      assert p == Projected(Element(k, p.el.attrs, None, kids.els), own + kids.items);
      assert |kids.els| == |cs| && forall i {:trigger Registered(kids.els[i], cs[i], reg)} ::
               0 <= i < |cs| ==> Registered(kids.els[i], cs[i], reg) by {
        ProjectAllRegisters(cs, pre + own, post);
        assert |pre + own| == |pre| + |own|;
        assert reg == (pre + own) + kids.items + post;
      }
  }

  lemma {:induction false} ProjectAllRegisters(cs: seq<Syntax>, pre: seq<Syntax>, post: seq<Syntax>)
    requires |pre| + |ProjectAll(cs, |pre|).items| <= USIZE_MAX + 1
    ensures |ProjectAll(cs, |pre|).els| == |cs|
    ensures forall i {:trigger Registered(ProjectAll(cs, |pre|).els[i], cs[i],
                                          pre + ProjectAll(cs, |pre|).items + post)} ::
      0 <= i < |cs| ==> Registered(ProjectAll(cs, |pre|).els[i], cs[i], pre + ProjectAll(cs, |pre|).items + post)
    decreases cs, 0
  {
    if cs != [] {
      var f := ProjectAll(cs, |pre|);
      var head := Project(cs[0], |pre|);
      var tail := ProjectAll(cs[1..], |pre| + |head.items|);
      assert f == ProjectedAll([head.el] + tail.els, head.items + tail.items);
      var reg := pre + f.items + post;
      assert Registered(head.el, cs[0], reg) by {
        ProjectRegisters(cs[0], pre, tail.items + post);
        assert pre + head.items + (tail.items + post) == reg;
      }
      assert |tail.els| == |cs| - 1 && forall i {:trigger Registered(tail.els[i], cs[1..][i], reg)} ::
               0 <= i < |cs| - 1 ==> Registered(tail.els[i], cs[1..][i], reg) by {
        ProjectAllRegisters(cs[1..], pre + head.items, post);
        assert |pre + head.items| == |pre| + |head.items|;
        assert (pre + head.items) + tail.items + post == reg;
      }
      forall i | 0 <= i < |cs|
        ensures Registered(f.els[i], cs[i], reg)
      {
        if i > 0 {
          assert f.els[i] == tail.els[i - 1] && cs[i] == cs[1..][i - 1];
        }
      }
    }
  }

  /**
    For a whole file: the element the builder leaves under the document
    root is built for the file, with every id resolving through `get` to
    the node that produced its element.
   */
  lemma BuiltTreeResolves(file: Syntax)
    requires |Project(file, 0).items| <= USIZE_MAX + 1
    ensures |Visit(New(), file).doc| == 1
    ensures Registered(Visit(New(), file).doc[0], file, Visit(New(), file).items)
  {
    ProjectFile(file);
    ProjectRegisters(file, [], []);
    assert [] + Project(file, 0).items + [] == Project(file, 0).items;
  }

  /**
    Below an element built for `s`, the element at each path is built
    for the node at the same path below `s`.
   */
  lemma {:induction false} RegisteredBelow(e: Element, s: Syntax, reg: seq<Syntax>, p: Path)
    requires Registered(e, s, reg) && p != [] && ValidCursor(e.children, p)
    ensures SubtreeAt(s, p).Some? && Registered(At(e.children, p), SubtreeAt(s, p).value, reg)
    decreases p
  {
    var k := p[0];
    assert s.Node? && k < |s.children| && Registered(e.children[k], s.children[k], reg);
    assert SubtreeAt(s, p) == SubtreeAt(s.children[k], p[1..]);
    if |p| == 1 {
      assert At(e.children, p) == e.children[k] && SubtreeAt(s, p) == Some(s.children[k]);
    } else {
      assert At(e.children, p) == At(e.children[k].children, p[1..]);
      RegisteredBelow(e.children[k], s.children[k], reg, p[1..]);
    }
  }

  /**
    Every element of the document the builder leaves for a file, wherever
    the query finds it, is built against the final registry for the node
    of the file at the same position.
   */
  lemma EveryElementRegistered(file: Syntax, p: Path)
    requires |Project(file, 0).items| <= USIZE_MAX + 1
    requires p != [] && ValidCursor(Visit(New(), file).doc, p)
    ensures p[0] == 0 && SubtreeAt(file, p[1..]).Some?
    ensures Registered(At(Visit(New(), file).doc, p), SubtreeAt(file, p[1..]).value, Visit(New(), file).items)
  {
    BuiltTreeResolves(file);
    var b := Visit(New(), file);
    if |p| == 1 {
      assert At(b.doc, p) == b.doc[0] && p[1..] == [];
    } else {
      assert At(b.doc, p) == At(b.doc[0].children, p[1..]);
      RegisteredBelow(b.doc[0], file, b.items, p[1..]);
    }
  }
}

=== FILE: wrappers.dfy ===
/** Rust's `Option` and `Result`, shared by the other modules. */
module Wrappers {

  /** Rust's `Option<T>`. */
  datatype Option<+T> = None | Some(value: T)

  /** Rust's `Result<T, E>`. */
  datatype Result<+T, +E> = Success(value: T) | Failure(error: E)
}
